=== FILE: README.md ===
# Ted's AdvancedEditText, modelled in Dafny

Ted is an Android text editor. Its `AdvancedEditText` widget is an
`EditText` that adds three things:

- a gutter with line numbers;
- a translucent bar over the line that holds the caret;
- colour themes and fling scrolling.

Most of the class delegates to the Android framework. This project models
the parts that hold their own logic, as pure functions over immutable
values:

- **Caret line** (`computeLineHighlight`). This is the 0-based index of the
  caret's line, found by hopping from line feed to line feed with
  `String.indexOf`. The widget keeps two fields between redraws,
  `mHighlightedLine` and `mHighlightStart`, as a would-be memo. The
  constructor sets `mHighlightStart` to -1 and nothing ever writes it again.
  So the guard "selection equals the cached start" fires only when there is
  no selection (-1), and then it keeps a stale line. In every other case the
  text is rescanned. The model keeps this behaviour: `ReplayFromConstructor`
  and `Widget.InvariantHolds` state it.
- **Gutter** (`onDraw`). The widget reserves one digit slot per decimal digit
  of the line count, which is `floor(log10(count)) + 1`, and places the
  gutter rule after them. `onDraw` reads the line count twice: once to size
  the gutter (line 83) and once to drive the loop (line 100), with
  `setPadding` in between. The model takes the two reads as separate inputs.
  It proves that every printed line number fits in front of the rule when
  the loop's count has no more digits than the gutter's. It also shows that
  a number overflows the rule when the second read has more digits, as with
  99 lines and then 100.
- **Draw loop** (`onDraw`). A fold over the line rectangles that the layout
  reports. It culls lines wholly above or below the visible rectangle and
  draws the highlight bar, the number `i + 1` and the gutter rule. It also
  tracks the content extents used as fling-scroll bounds.
- **Themes** (`updateFromSettings`). A total map from the colour setting to
  four values: a background, the text colour, the highlight colour and the
  line-number colour. Unknown codes fall back to the classic theme.

Modules, one per concern:

- `TextLines`: line-feed counting and `String.indexOf`.
- `CaretLine`: `computeLineHighlight` and its scan loop.
- `Decimal`: digit counts and `"" + n`.
- `Gutter`: padding and rule position.
- `DrawPass`: the line loop and the extents.
- `Theme`: the colour switch.
- `Widget`: the callbacks composed.
- `Options`: nullable references.

Two facts about the code that the model keeps as written:

- `computeLineHighlight` writes only `mHighlightedLine`. `mHighlightStart`
  is set once, in the constructor (line 49), and never written again.
- Of the two content extents, only `x` is a running maximum. `y` is the
  bottom of the last line bounds read. If there are no lines, that is the
  bounds left over from the previous draw pass.

## Model

| member | source | states |
|---|---|---|
| TextLines.IndexOf | Ted/src/fr/xgouchet/texteditor/ui/view/AdvancedEditText.java:307 | `indexOf("\n", i)`: -1 exactly when no line feed lies at or after `i`; otherwise the first line-feed position at or after `i` (a negative start searches from 0) |
| TextLines.NewlinesBefore | Ted/src/fr/xgouchet/texteditor/ui/view/AdvancedEditText.java:305-315 | the caret line for any int selection is the multiplicity of the line feed in the text before the selection pulled into the text, and never exceeds the line feeds of the whole text |
| TextLines.NewlinesBeforeCountsPositions | Ted/src/fr/xgouchet/texteditor/ui/view/AdvancedEditText.java:305-315 | for 0 <= selStart <= length, the caret line equals the number of line feeds at positions strictly below selStart, both as a multiset multiplicity and as a count of positions |
| TextLines.NewlinesBeforeZeroIff | Ted/src/fr/xgouchet/texteditor/ui/view/AdvancedEditText.java:305-313 | the caret line is 0 if and only if no line feed precedes the selection; it is 0 whenever selStart <= 0 |
| TextLines.NewlinesBeforeMonotone | Ted/src/fr/xgouchet/texteditor/ui/view/AdvancedEditText.java:305-313 | the caret line is non-decreasing in selStart and never exceeds the total number of line feeds |
| CaretLine.ComputeLineHighlight | Ted/src/fr/xgouchet/texteditor/ui/view/AdvancedEditText.java:292-317 | disabled gives -1; a selection equal to the cached start keeps the cached line; otherwise the line is the line-feed multiplicity of the text before the selection (0 for selStart <= 0, all line feeds past the end); the cached start is never written |
| CaretLine.ScanCaretLine | Ted/src/fr/xgouchet/texteditor/ui/view/AdvancedEditText.java:305-315 | the `indexOf` loop, with a loop invariant, returns exactly the number of line feeds before the selection, for every int selection including negative and past-the-end ones |
| CaretLine.ReplayKeepsStart | Ted/src/fr/xgouchet/texteditor/ui/view/AdvancedEditText.java:292-317 | no sequence of calls changes `mHighlightStart` |
| CaretLine.ReplaySnoc | Ted/src/fr/xgouchet/texteditor/ui/view/AdvancedEditText.java:292-317 | replaying one more redraw is one more call on the fields left by the earlier ones |
| CaretLine.ReplayFromConstructor | Ted/src/fr/xgouchet/texteditor/ui/view/AdvancedEditText.java:302-315 | starting from the constructor's -1/-1 (line 49), the start stays -1. Any enabled redraw with a selection highlights that selection's caret line; one with selection -1 keeps the previous line |
| Decimal.DigitCountBrackets | Ted/src/fr/xgouchet/texteditor/ui/view/AdvancedEditText.java:85 | for n >= 1, 10^(d-1) <= n < 10^d where d is the digit count, so d = floor(log10 n) + 1 |
| Decimal.DigitCountUnique | Ted/src/fr/xgouchet/texteditor/ui/view/AdvancedEditText.java:85 | conversely, any d bracketing n between consecutive powers of ten is its digit count |
| Decimal.DigitCountMonotone | Ted/src/fr/xgouchet/texteditor/ui/view/AdvancedEditText.java:85 | the digit count is non-decreasing |
| Decimal.DigitCountAtPowerOfTen | Ted/src/fr/xgouchet/texteditor/ui/view/AdvancedEditText.java:85 | 10^k has k+1 digits and 10^k - 1 has k |
| Decimal.DigitCountStep | Ted/src/fr/xgouchet/texteditor/ui/view/AdvancedEditText.java:85 | from n to n+1 the digit count rises by at most one, and by one exactly when n+1 is a power of ten |
| Decimal.DecimalString | Ted/src/fr/xgouchet/texteditor/ui/view/AdvancedEditText.java:118 | `"" + n` has as many characters as n has digits, all decimal digits, with no leading zero for n >= 1 |
| Decimal.DecimalRoundTrip | Ted/src/fr/xgouchet/texteditor/ui/view/AdvancedEditText.java:118 | reading a printed line number back gives the number |
| Gutter.DigitSlotsIsLog10 | Ted/src/fr/xgouchet/texteditor/ui/view/AdvancedEditText.java:85 | the slot count brackets a positive line count between powers of ten. A count of 0 gives Integer.MIN_VALUE and a negative count gives 0, as the float-to-int cast does |
| Gutter.DigitSlots | Ted/src/fr/xgouchet/texteditor/ui/view/AdvancedEditText.java:85 | for a positive line count, the slot count is the length of the last line's printed number; for a count below 1 it is not positive |
| Gutter.NumbersFitSlots | Ted/src/fr/xgouchet/texteditor/ui/view/AdvancedEditText.java:85-118 | every number from 1 to the line count has at most as many characters as the gutter has digit slots, and the last line's number has exactly that many |
| Gutter.LeftPadding | Ted/src/fr/xgouchet/texteditor/ui/view/AdvancedEditText.java:82-91 | without numbers the left padding is the margin; with numbers and at least one line it is one glyph width per character of the last line's number, plus the margin, plus half a character |
| Gutter.RuleX | Ted/src/fr/xgouchet/texteditor/ui/view/AdvancedEditText.java:101 | the rule sits half a character left of where the text starts (view left plus left padding), so never to its right |
| Gutter.LabelsFitGutter | Ted/src/fr/xgouchet/texteditor/ui/view/AdvancedEditText.java:84-121 | every number from 1 to the line count, printed at the margin, ends at or before the gutter rule; the last line's number fills the reserved digit slots exactly |
| Gutter.DigitsFitGutter | Ted/src/fr/xgouchet/texteditor/ui/view/AdvancedEditText.java:85-121 | a number with between one digit and as many digits as the gutter has slots, printed at the margin, ends at or before the rule |
| Gutter.NarrowGutterOverflows | Ted/src/fr/xgouchet/texteditor/ui/view/AdvancedEditText.java:85-121 | a gutter sized for 99 lines has two slots, and the three digits of 100 printed at the margin end one glyph past the rule |
| Gutter.LeftPaddingMonotone | Ted/src/fr/xgouchet/texteditor/ui/view/AdvancedEditText.java:82-91 | with numbers shown, the left padding never shrinks as the line count grows |
| Gutter.LeftPaddingAtPowerOfTen | Ted/src/fr/xgouchet/texteditor/ui/view/AdvancedEditText.java:85-87 | the padding widens by exactly one digit slot when the count reaches a power of ten |
| DrawPass.CulledIffDisjoint | Ted/src/fr/xgouchet/texteditor/ui/view/AdvancedEditText.java:109-112 | a well-formed line is skipped if and only if no row of pixels lies in both it and the visible rectangle |
| DrawPass.LineCommandsShape | Ted/src/fr/xgouchet/texteditor/ui/view/AdvancedEditText.java:114-121 | for a visible line: the bar over its bounds is drawn exactly when it is the highlighted line and word wrap is off; with numbers shown both its number and the gutter rule across the view are drawn; every number drawn reads back as i+1 |
| DrawPass.LineCommandsOrder | Ted/src/fr/xgouchet/texteditor/ui/view/AdvancedEditText.java:114-121 | within a line the bar comes first and the number then the rule come last; a line draws exactly one command for the bar when highlighted with word wrap off, plus two when numbers are shown |
| DrawPass.LineBarIff | Ted/src/fr/xgouchet/texteditor/ui/view/AdvancedEditText.java:114-115 | a line draws a bar over a rectangle exactly when it is the highlighted line, word wrap is off and the rectangle is the line's bounds |
| DrawPass.GrowRight | Ted/src/fr/xgouchet/texteditor/ui/view/AdvancedEditText.java:105-107 | absent extents stay absent; otherwise x becomes the larger of itself and the line's right edge, and y is untouched |
| DrawPass.Pass | Ted/src/fr/xgouchet/texteditor/ui/view/AdvancedEditText.java:103-122 | the loop keeps extents present exactly when they were, never lowers x, leaves y alone, and draws at most three commands per line |
| DrawPass.PassSnoc | Ted/src/fr/xgouchet/texteditor/ui/view/AdvancedEditText.java:103-122 | lines are drawn in ascending order: one more line appends its commands, when it survives culling, after those of all earlier lines, and grows x by its right edge |
| DrawPass.FinishExtents | Ted/src/fr/xgouchet/texteditor/ui/view/AdvancedEditText.java:124-128 | absent extents stay absent; present ones become scroll ranges: x is the running maximum plus padding minus the view width when that is positive and 0 otherwise; y likewise from the last line's bottom and the view height |
| DrawPass.PassExtents | Ted/src/fr/xgouchet/texteditor/ui/view/AdvancedEditText.java:103-107 | the running x is the maximum of its prior value and every line's right edge, culled lines included; y is untouched; null extents stay null |
| DrawPass.PassHighlightIff | Ted/src/fr/xgouchet/texteditor/ui/view/AdvancedEditText.java:109-115 | a highlight bar is drawn for a rectangle if and only if it is the bounds of the highlighted line, that line overlaps the visible rectangle vertically, and word wrap is off |
| DrawPass.PassLabelsSound | Ted/src/fr/xgouchet/texteditor/ui/view/AdvancedEditText.java:109-121 | every printed number is i+1 for an overlapping line i, at the margin, on that line's baseline, and only with numbers shown; every gutter rule spans the visible rectangle at the rule's x |
| DrawPass.PassLabelsPresent | Ted/src/fr/xgouchet/texteditor/ui/view/AdvancedEditText.java:109-121 | with numbers shown, every line that survives both culling guards has its number i+1 printed at the margin on its baseline, and the gutter rule is drawn across the view |
| DrawPass.PassLabelsComplete | Ted/src/fr/xgouchet/texteditor/ui/view/AdvancedEditText.java:109-119 | with numbers shown, line i's number is printed if and only if its bounds overlap the visible rectangle vertically |
| Theme.ThemeOf | Ted/src/fr/xgouchet/texteditor/ui/view/AdvancedEditText.java:236-268 | the classic branch is taken exactly when the colour setting is none of the negative, matrix, sky or dracula codes; any other branch is taken only on its own code |
| Theme.BranchPalette | Ted/src/fr/xgouchet/texteditor/ui/view/AdvancedEditText.java:237-267 | in every branch the highlight is set to the text colour, and the text and number colours are opaque |
| Theme.ApplyTheme | Ted/src/fr/xgouchet/texteditor/ui/view/AdvancedEditText.java:236-269 | the highlight is the text colour with alpha 48; text and number colours are opaque; any code other than negative, matrix, sky or dracula gives the classic palette |
| Theme.ThemeRoundTrip | Ted/src/fr/xgouchet/texteditor/ui/view/AdvancedEditText.java:236-268 | with distinct case labels, each theme's code selects that theme |
| Theme.PaletteIdentifiesTheme | Ted/src/fr/xgouchet/texteditor/ui/view/AdvancedEditText.java:236-268 | different themes have different backgrounds |
| Widget.UpdateFromSettings | Ted/src/fr/xgouchet/texteditor/ui/view/AdvancedEditText.java:227-287 | in edit mode nothing changes. Otherwise: horizontal scrolling is the opposite of word wrap; the palette of the theme the colour setting selects is applied, with highlight alpha 48; extents exist exactly when fling scrolling is on, starting at (0, 0); the highlight cache is untouched |
| Widget.Construct | Ted/src/fr/xgouchet/texteditor/ui/view/AdvancedEditText.java:37-57 | the constructor leaves both cache fields at -1 and the invariant holding; outside edit mode it applies the selected theme, and extents exist exactly when fling scrolling is on |
| Widget.OnDraw | Ted/src/fr/xgouchet/texteditor/ui/view/AdvancedEditText.java:78-130 | a draw pass keeps the cached start; the stored line is -1 when disabled, the cached line when the selection equals the cached start, and otherwise the number of line feeds before the selection; it keeps whether extents exist and makes them non-negative, records the last line's bounds, sets the padding to the margin or to the margin plus one glyph per digit of the first line-count read plus half a character, and draws at most three commands per line of the second read |
| Widget.InvariantHolds | Ted/src/fr/xgouchet/texteditor/ui/view/AdvancedEditText.java:37-57 | the constructor establishes, and both callbacks keep: cached start -1 and non-negative stored extents. A draw pass keeps whether extents exist |
| Widget.OnDrawHighlightsCaretLine | Ted/src/fr/xgouchet/texteditor/ui/view/AdvancedEditText.java:97-115 | when enabled with a selection, the bar is drawn exactly over the line whose index is the number of line feeds before the selection, if that line exists, is visible and word wrap is off |
| Widget.OnDrawDisabled | Ted/src/fr/xgouchet/texteditor/ui/view/AdvancedEditText.java:292-299 | a disabled widget draws no highlight bar, sets the line to -1 and leaves the cached start alone |
| Widget.OnDrawLabelsFitGutter | Ted/src/fr/xgouchet/texteditor/ui/view/AdvancedEditText.java:83-121 | every gutter rule a pass draws sits at the pass's rule position; when the loop's line count has no more digits than the gutter's count (in particular when the two reads agree), every printed number ends at or before that rule |
| Widget.OnDrawLabelCanOverflow | Ted/src/fr/xgouchet/texteditor/ui/view/AdvancedEditText.java:83-121 | when the gutter is sized for 99 lines and the loop draws 100, the visible 100th line's number is printed and ends past the rule |
| Widget.OnDrawLabelsComplete | Ted/src/fr/xgouchet/texteditor/ui/view/AdvancedEditText.java:109-121 | with numbers shown, line i's number is printed at the margin exactly when the line survives culling, and a visible line brings the gutter rule at the pass's rule position; with numbers hidden no number and no rule is drawn |
| Widget.OnDrawExtents | Ted/src/fr/xgouchet/texteditor/ui/view/AdvancedEditText.java:103-128 | after a pass with lines, stored x is 0 or the widest of the prior x and every line's right edge (culled or not), plus padding minus view width, and is at least each of those; stored y is the last line's bottom plus padding minus view height, clamped at 0 |

## Left out

- Canvas drawing, `setPadding`, `getDrawingRect`, `getLineBounds` and text layout are Android framework calls. The line rectangles, baselines and drawing rectangle are inputs, and draw calls are returned as a list of commands. Text drawn by the base class's `onDraw` is not modelled.
- The pixel sizes are integer parameters (`Gutter.Metrics`): the density scale `mScale`, the `0.5` and `0.85f` factors, and the number paint's text size. Float rounding and the saturation of the line-86 cast are not modelled (see Gutter.LeftPadding). The line-85 cast's values for counts of 0 and below are modelled.
- Gutter.LabelsFitGutter: the width of a printed number is taken as its digit count times the number paint's text size. The source never measures the numbers; monospace digits are narrower than the text size, so the real numbers end further left than the model says.
- Widget.OnDraw: the two `getLineCount()` reads (lines 83 and 100) are independent inputs, `gutterCount` and the length of `boxes`. Whether the `setPadding` call between them can change the layout's line count synchronously is framework behaviour, so the model does not relate them.
- Widget.OnDrawLabelsFitGutter: the fit is promised only when the loop's line count has no more digits than the gutter's count; `Widget.OnDrawLabelCanOverflow` shows that otherwise a number can run past the rule.
- Gutter.LeftPadding: for a line count of 0, the Java width expression saturates to `Integer.MIN_VALUE`. The model multiplies the `Integer.MIN_VALUE` digit slots as an unbounded integer instead. The lemmas about padding take a count of at least 1, which every laid-out text has.
- `Math.log10` is not modelled as floating point. For int arguments, `floor(log10(n)) + 1` is taken to be the exact digit count, which holds because `log10` is exact on powers of ten and int-sized inputs are far from rounding trouble.
- Pixel coordinates and extents are unbounded integers; 32-bit overflow of `mMaxSize` arithmetic is not modelled.
- Gesture handling (`onTouchEvent`, `onDown`, `onScroll`, `onFling`, `onShowPress`, `onLongPress`) and `computeScroll` are not modelled. They only delegate to the gesture detector and the `Scroller` animator, whose physics is framework code.
- The soft keyboard call in `onSingleTapUp` is a system-service call.
- `onKey` returns `false` on every path.
- The settings store is global static state; its fields are passed in as `Widget.Settings`.
- The numeric values of the `COLOR_*` codes are defined in `Constants.java`, which is not part of this model. They are a `Theme.ColorCodes` parameter.
- Paint objects other than their colours (typeface, antialiasing, text size) and `setTextSize`, `postInvalidate` and `refreshDrawableState` are not modelled.
- Java strings are UTF-16, and `indexOf` and `getSelectionStart` count UTF-16 units. The text is a `seq<char>` with one element per unit. A Dafny `char` cannot hold a surrogate, so a surrogate unit stands as any `char` other than a line feed; positions and line-feed counts stay the same.

=== FILE: caret_line.dfy ===
/** The caret-line computation of the editor widget: which line to highlight,
    and the two fields it keeps between redraws. */
module CaretLine {
  import opened TextLines

  /** The "no highlighted line" sentinel, also the constructor's value of
      both cached fields. */
  const NoLine: int := -1

  /** The widget's `mHighlightedLine` and `mHighlightStart`. */
  datatype HighlightCache = HighlightCache(line: int, start: int)

  /** Both fields as the constructor leaves them. */
  const Initial := HighlightCache(NoLine, NoLine)

  /** What one redraw reads from the text view: whether it is enabled, the
      selection start (-1 when there is no selection) and the text. */
  datatype Frame = Frame(enabled: bool, selStart: int, text: seq<char>)

  /** One call of `computeLineHighlight`. A disabled widget highlights no
      line; a selection equal to the cached start keeps the cached line;
      any other selection rescans the text. The cached start itself is never
      written. */
  function ComputeLineHighlight(cache: HighlightCache, f: Frame): (r: HighlightCache)
    ensures r.start == cache.start
    ensures !f.enabled ==> r.line == NoLine
    ensures f.enabled && f.selStart == cache.start ==> r.line == cache.line
    ensures f.enabled && f.selStart != cache.start && 0 <= f.selStart <= |f.text| ==>
      r.line == multiset(f.text[..f.selStart])[LineFeed]
    ensures f.enabled && f.selStart != cache.start && f.selStart > |f.text| ==>
      r.line == NewlineCount(f.text)
    ensures f.enabled && f.selStart != cache.start && f.selStart <= 0 ==> r.line == 0
  {
    if !f.enabled then
      cache.(line := NoLine)
    else if f.selStart == cache.start then
      cache
    else
      NewlinesBeforeCountsPositions(f.text, ClampOffset(f.text, f.selStart));
      assert f.text[..|f.text|] == f.text;
      cache.(line := NewlinesBefore(f.text, f.selStart))
  }

  /** The scan loop of `computeLineHighlight`: hop from line feed to line
      feed with `indexOf`, counting those strictly before the selection. */
  method ScanCaretLine(text: seq<char>, selStart: int) returns (line: int)
    ensures line == NewlinesBefore(text, selStart)
  {
    var limit := ClampOffset(text, selStart);
    line := 0;
    var i := 0;
    while i < selStart
      invariant 0 <= i <= |text|
      invariant line == NewlineCount(text[..if i <= limit then i else limit])
      decreases |text| - i
    {
      var k := IndexOf(text, LineFeed, i);
      if k < 0 {
        CountFlatStretch(text, i, limit);
        break;
      }
      CountFlatStretch(text, i, if k < limit then k else limit);
      if k < selStart {
        CountStep(text, k);
        line := line + 1;
      }
      i := k + 1;
    }
  }

  /** A run of redraws, each calling `computeLineHighlight` on the result of
      the previous one. */
  function Replay(cache: HighlightCache, frames: seq<Frame>): HighlightCache
    decreases |frames|
  {
    if |frames| == 0 then cache
    else Replay(ComputeLineHighlight(cache, frames[0]), frames[1..])
  }

  /** No run of redraws ever writes the cached start. */
  lemma {:induction false} ReplayKeepsStart(cache: HighlightCache, frames: seq<Frame>)
    ensures Replay(cache, frames).start == cache.start
    decreases |frames|
  {
    if |frames| > 0 {
      ReplayKeepsStart(ComputeLineHighlight(cache, frames[0]), frames[1..]);
    }
  }

  /** Starting from the constructor's fields, the cached start stays -1, so
      the memo guard never spares a rescan: every enabled redraw with a
      selection yields the caret line of that redraw, and one without a
      selection (-1) keeps whatever line was highlighted before. */
  lemma ReplayFromConstructor(frames: seq<Frame>, f: Frame)
    ensures Replay(Initial, frames + [f]).start == NoLine
    ensures f.enabled && f.selStart != NoLine ==>
      Replay(Initial, frames + [f]).line == NewlinesBefore(f.text, f.selStart)
    ensures f.enabled && f.selStart == NoLine ==>
      Replay(Initial, frames + [f]).line == Replay(Initial, frames).line
  {
    ReplayKeepsStart(Initial, frames);
    ReplaySnoc(Initial, frames, f);
  }

  /** Replaying one more frame is one more call on the replayed fields. */
  lemma {:induction false} ReplaySnoc(cache: HighlightCache, frames: seq<Frame>, f: Frame)
    ensures Replay(cache, frames + [f]) == ComputeLineHighlight(Replay(cache, frames), f)
    decreases |frames|
  {
    if |frames| == 0 {
      assert frames + [f] == [f];
    } else {
      assert (frames + [f])[1..] == frames[1..] + [f];
      ReplaySnoc(ComputeLineHighlight(cache, frames[0]), frames[1..], f);
    }
  }
}

=== FILE: decimal.dfy ===
/** Decimal notation of line numbers: how many digits a number has (the
    integer reading of `floor(log10(n)) + 1`) and the string `"" + n` that
    the gutter prints. */
module Decimal {

  function Pow10(k: nat): (p: nat)
    ensures p >= 1
  {
    if k == 0 then 1 else 10 * Pow10(k - 1)
  }

  /** Number of decimal digits of `n`; 0 is written with one digit. */
  function DigitCount(n: nat): nat
  {
    if n < 10 then 1 else 1 + DigitCount(n / 10)
  }

  predicate IsDigit(c: char)
  {
    '0' <= c <= '9'
  }

  function DigitChar(d: nat): (c: char)
    requires d < 10
    ensures IsDigit(c)
  {
    (('0' as int) + d) as char
  }

  function DigitValue(c: char): (d: nat)
    requires IsDigit(c)
    ensures d < 10
  {
    (c as int) - ('0' as int)
  }

  /** Java's `"" + n` for a non-negative int: most significant digit first,
      no leading zero. */
  function DecimalString(n: nat): (s: string)
    ensures |s| == DigitCount(n)
    ensures forall k :: 0 <= k < |s| ==> IsDigit(s[k])
    ensures n >= 1 ==> s[0] != '0'
    decreases n
  {
    if n < 10 then [DigitChar(n)] else DecimalString(n / 10) + [DigitChar(n % 10)]
  }

  /** Reads a string of digits back as a number (the inverse of `DecimalString`). */
  function ParseDecimal(s: string): nat
    requires forall k :: 0 <= k < |s| ==> IsDigit(s[k])
  {
    if |s| == 0 then 0
    else 10 * ParseDecimal(s[..|s| - 1]) + DigitValue(s[|s| - 1])
  }

  /** Printing then reading a line number gives the number back. */
  lemma {:induction false} DecimalRoundTrip(n: nat)
    ensures ParseDecimal(DecimalString(n)) == n
    decreases n
  {
    var s := DecimalString(n);
    if n >= 10 {
      assert s[..|s| - 1] == DecimalString(n / 10);
      DecimalRoundTrip(n / 10);
    }
  }

  /** The digit count brackets the number between consecutive powers of ten:
      it is `floor(log10(n)) + 1`. */
  lemma {:induction false} DigitCountBrackets(n: nat)
    requires n >= 1
    ensures Pow10(DigitCount(n) - 1) <= n < Pow10(DigitCount(n))
    decreases n
  {
    if n >= 10 {
      DigitCountBrackets(n / 10);
    }
  }

  /** Conversely, the bracketing determines the digit count. */
  lemma {:induction false} DigitCountUnique(n: nat, d: nat)
    requires d >= 1 && Pow10(d - 1) <= n < Pow10(d)
    ensures DigitCount(n) == d
    decreases d
  {
    if d > 1 {
      assert n >= 10;
      DigitCountUnique(n / 10, d - 1);
    } else {
      assert n < 10;
    }
  }

  /** More lines never need fewer digits. */
  lemma {:induction false} DigitCountMonotone(m: nat, n: nat)
    requires m <= n
    ensures DigitCount(m) <= DigitCount(n)
    decreases n
  {
    if m >= 10 {
      DigitCountMonotone(m / 10, n / 10);
    }
  }

  /** A power of ten `10^k` has `k + 1` digits, one more than its predecessor. */
  lemma DigitCountAtPowerOfTen(k: nat)
    requires k >= 1
    ensures DigitCount(Pow10(k)) == k + 1
    ensures DigitCount(Pow10(k) - 1) == k
  {
    DigitCountUnique(Pow10(k), k + 1);
    DigitCountUnique(Pow10(k) - 1, k);
  }

  /** Between powers of ten the digit count stays put: going from `n` to
      `n + 1` adds a digit exactly when `n + 1` is the next power of ten. */
  lemma DigitCountStep(n: nat)
    requires n >= 1
    ensures DigitCount(n + 1) == DigitCount(n) || DigitCount(n + 1) == DigitCount(n) + 1
    ensures DigitCount(n + 1) == DigitCount(n) + 1 <==> n + 1 == Pow10(DigitCount(n))
  {
    var d := DigitCount(n);
    DigitCountBrackets(n);
    if n + 1 == Pow10(d) {
      DigitCountAtPowerOfTen(d);
    } else {
      DigitCountUnique(n + 1, d);
    }
  }
}

=== FILE: draw_pass.dfy ===
/** The per-line loop of `onDraw`: which lines are painted, what is painted
    for each, and the content extents kept for fling scrolling. Line
    rectangles come from the text layout and are inputs here. */
module DrawPass {
  import opened Options
  import opened Decimal

  datatype Rect = Rect(left: int, top: int, right: int, bottom: int)
  {
    function Width(): int { right - left }
    function Height(): int { bottom - top }
  }

  /** What the layout reports for one line: its bounds and its baseline. */
  datatype LineBox = LineBox(bounds: Rect, baseline: int)

  datatype Point = Point(x: int, y: int)

  /** What the loop asks the canvas to draw. */
  datatype DrawCmd =
    | HighlightBar(bounds: Rect)
    | LineNumber(text: string, x: int, baseline: int)
    | GutterRule(x: int, top: int, bottom: int)

  /** Everything the loop reads besides the line boxes: the visible
      rectangle, the highlighted line, two settings, `mPadding` and the x of
      the gutter rule. */
  datatype PassConfig = PassConfig(
    view: Rect,
    highlighted: int,
    wordWrap: bool,
    showNumbers: bool,
    padding: int,
    ruleX: int)

  /** The loop's state after some lines: commands so far and `mMaxSize`
      (absent when fling scrolling is off). */
  datatype PassState = PassState(cmds: seq<DrawCmd>, maxSize: Option<Point>)

  /** The two `continue` guards: a line lies wholly above or wholly below the
      visible rectangle. */
  predicate Culled(b: Rect, view: Rect)
  {
    b.bottom < view.top || b.top > view.bottom
  }

  /** For non-empty extents, a line is culled exactly when no row of it lies
      in the visible rectangle: the guards keep every line that overlaps the
      view even partly and drop every other one. */
  lemma CulledIffDisjoint(b: Rect, view: Rect)
    requires b.top <= b.bottom && view.top <= view.bottom
    ensures Culled(b, view) <==> !exists y :: Spans(b, y) && Spans(view, y)
  {
    if !Culled(b, view) {
      var y := if b.top > view.top then b.top else view.top;
      assert Spans(b, y) && Spans(view, y);
    }
  }

  /** The row `y` lies within the vertical extent of `r`. */
  predicate Spans(r: Rect, y: int)
  {
    r.top <= y <= r.bottom
  }

  /** What is drawn for line `i` once it survives culling: at most a bar,
      a number and a rule. */
  function LineCommands(i: nat, box: LineBox, cfg: PassConfig): (r: seq<DrawCmd>)
    ensures |r| <= 3
  {
    (if i == cfg.highlighted && !cfg.wordWrap then [HighlightBar(box.bounds)] else [])
    + (if cfg.showNumbers then
         [ LineNumber(DecimalString(i + 1), cfg.view.left + cfg.padding, box.baseline),
           GutterRule(cfg.ruleX, cfg.view.top, cfg.view.bottom) ]
       else [])
  }

  /** The commands of one surviving line: the bar exactly for the
      highlighted line with word wrap off, and, when numbers are shown, a
      number at the gutter margin on the line's baseline and the gutter rule
      across the view. Every number drawn reads back as `i + 1`. */
  lemma LineCommandsShape(i: nat, box: LineBox, cfg: PassConfig)
    ensures HighlightBar(box.bounds) in LineCommands(i, box, cfg) <==> i == cfg.highlighted && !cfg.wordWrap
    ensures cfg.showNumbers ==>
      && LineNumber(DecimalString(i + 1), cfg.view.left + cfg.padding, box.baseline) in LineCommands(i, box, cfg)
      && GutterRule(cfg.ruleX, cfg.view.top, cfg.view.bottom) in LineCommands(i, box, cfg)
    ensures forall c | c in LineCommands(i, box, cfg) && c.LineNumber? ::
      (forall j :: 0 <= j < |c.text| ==> IsDigit(c.text[j])) && ParseDecimal(c.text) == i + 1
  {
    LineCommandsOrder(i, box, cfg);
    DecimalRoundTrip(i + 1);
  }

  /** The order within one line: the bar first, then the number, then the
      rule; with numbers hidden at most the bar is drawn. */
  lemma LineCommandsOrder(i: nat, box: LineBox, cfg: PassConfig)
    ensures i == cfg.highlighted && !cfg.wordWrap ==> LineCommands(i, box, cfg)[0] == HighlightBar(box.bounds)
    ensures cfg.showNumbers ==>
      LineCommands(i, box, cfg)[|LineCommands(i, box, cfg)| - 2..] ==
        [ LineNumber(DecimalString(i + 1), cfg.view.left + cfg.padding, box.baseline),
          GutterRule(cfg.ruleX, cfg.view.top, cfg.view.bottom) ]
    ensures |LineCommands(i, box, cfg)|
         == (if i == cfg.highlighted && !cfg.wordWrap then 1 else 0) + (if cfg.showNumbers then 2 else 0)
  {
    var bar := if i == cfg.highlighted && !cfg.wordWrap then [HighlightBar(box.bounds)] else [];
    var nums := if cfg.showNumbers then
        [ LineNumber(DecimalString(i + 1), cfg.view.left + cfg.padding, box.baseline),
          GutterRule(cfg.ruleX, cfg.view.top, cfg.view.bottom) ]
      else [];
    var line := LineCommands(i, box, cfg);
    assert line == bar + nums;
    if cfg.showNumbers {
      assert line[|line| - 2..] == nums;
    }
  }

  /** The bar of one line covers that line's bounds and is drawn only for
      the highlighted line with word wrap off. */
  lemma LineBarIff(i: nat, box: LineBox, cfg: PassConfig, r: Rect)
    ensures HighlightBar(r) in LineCommands(i, box, cfg) <==>
      i == cfg.highlighted && !cfg.wordWrap && r == box.bounds
  {
    LineCommandsOrder(i, box, cfg);
    var bar := if i == cfg.highlighted && !cfg.wordWrap then [HighlightBar(box.bounds)] else [];
    var nums := if cfg.showNumbers then
        [ LineNumber(DecimalString(i + 1), cfg.view.left + cfg.padding, box.baseline),
          GutterRule(cfg.ruleX, cfg.view.top, cfg.view.bottom) ]
      else [];
    assert LineCommands(i, box, cfg) == bar + nums;
  }

  /** `mMaxSize.x` grows to the right edge of a line; this happens before the
      culling guards, so every line counts. */
  function GrowRight(maxSize: Option<Point>, b: Rect): (r: Option<Point>)
    ensures r.None? <==> maxSize.None?
    ensures r.Some? ==>
      && r.value.y == maxSize.value.y
      && r.value.x >= maxSize.value.x && r.value.x >= b.right
      && (r.value.x == maxSize.value.x || r.value.x == b.right)
  {
    match maxSize
    case None => None
    case Some(p) => if p.x < b.right then Some(p.(x := b.right)) else maxSize
  }

  /** The loop over lines `0 .. |boxes| - 1`, as a fold over the prefix
      handled so far. */
  function Pass(boxes: seq<LineBox>, cfg: PassConfig, maxSize: Option<Point>): (r: PassState)
    ensures r.maxSize.None? <==> maxSize.None?
    ensures r.maxSize.Some? ==> r.maxSize.value.y == maxSize.value.y && r.maxSize.value.x >= maxSize.value.x
    ensures |r.cmds| <= 3 * |boxes|
    decreases |boxes|
  {
    if |boxes| == 0 then PassState([], maxSize)
    else
      var n := |boxes| - 1;
      var prev := Pass(boxes[..n], cfg, maxSize);
      var grown := GrowRight(prev.maxSize, boxes[n].bounds);
      if Culled(boxes[n].bounds, cfg.view) then PassState(prev.cmds, grown)
      else PassState(prev.cmds + LineCommands(n, boxes[n], cfg), grown)
  }

  /** After the loop: `mMaxSize.y` takes the bottom of the last line bounds
      read, then both coordinates become the scroll range, clamped at 0. */
  function FinishExtents(maxSize: Option<Point>, lastBounds: Rect, view: Rect, padding: int): (r: Option<Point>)
    ensures r.None? <==> maxSize.None?
    ensures r.Some? ==> r.value.x >= 0 && r.value.y >= 0
    ensures r.Some? ==> r.value.x >= maxSize.value.x + padding - view.Width()
    ensures r.Some? ==> r.value.y >= lastBounds.bottom + padding - view.Height()
    ensures r.Some? ==>
      r.value.x == (if maxSize.value.x + padding - view.Width() > 0 then maxSize.value.x + padding - view.Width() else 0)
    ensures r.Some? ==>
      r.value.y == (if lastBounds.bottom + padding - view.Height() > 0 then lastBounds.bottom + padding - view.Height() else 0)
  {
    match maxSize
    case None => None
    case Some(p) =>
      var x := p.x + padding - view.Width();
      var y := lastBounds.bottom + padding - view.Height();
      Some(Point(if x > 0 then x else 0, if y > 0 then y else 0))
  }

  /** The running extent: absent stays absent; otherwise `y` is untouched
      and `x` becomes the largest of its prior value and the right edge of
      every line, culled or not. */
  lemma {:induction false} PassExtents(boxes: seq<LineBox>, cfg: PassConfig, maxSize: Option<Point>)
    ensures Pass(boxes, cfg, maxSize).maxSize.None? <==> maxSize.None?
    ensures maxSize.Some? ==>
      var q := Pass(boxes, cfg, maxSize).maxSize.value;
      && q.y == maxSize.value.y
      && q.x >= maxSize.value.x
      && (forall i :: 0 <= i < |boxes| ==> boxes[i].bounds.right <= q.x)
      && (q.x == maxSize.value.x || exists i :: 0 <= i < |boxes| && q.x == boxes[i].bounds.right)
    decreases |boxes|
  {
    if |boxes| > 0 {
      var n := |boxes| - 1;
      PassExtents(boxes[..n], cfg, maxSize);
      if maxSize.Some? {
        var prev := Pass(boxes[..n], cfg, maxSize).maxSize.value;
        var q := Pass(boxes, cfg, maxSize).maxSize.value;
        forall i | 0 <= i < |boxes|
          ensures boxes[i].bounds.right <= q.x
        {
          if i < n {
            assert boxes[..n][i] == boxes[i];
          }
        }
        if q.x != maxSize.value.x && q.x != boxes[n].bounds.right {
          assert q.x == prev.x;
          var j :| 0 <= j < n && prev.x == boxes[..n][j].bounds.right;
          assert boxes[j] == boxes[..n][j];
        }
      }
    }
  }

  /** The highlight bar: drawn for the rectangle `r` exactly when `r` is the
      bounds of the highlighted line, that line overlaps the visible
      rectangle, and word wrap is off. */
  lemma {:induction false} PassHighlightIff(boxes: seq<LineBox>, cfg: PassConfig, maxSize: Option<Point>, r: Rect)
    ensures HighlightBar(r) in Pass(boxes, cfg, maxSize).cmds <==>
      && !cfg.wordWrap
      && 0 <= cfg.highlighted < |boxes|
      && boxes[cfg.highlighted].bounds.bottom >= cfg.view.top
      && boxes[cfg.highlighted].bounds.top <= cfg.view.bottom
      && r == boxes[cfg.highlighted].bounds
    decreases |boxes|
  {
    if |boxes| > 0 {
      var n := |boxes| - 1;
      var prev := Pass(boxes[..n], cfg, maxSize).cmds;
      var line := LineCommands(n, boxes[n], cfg);
      assert Pass(boxes, cfg, maxSize).cmds == prev + (if Culled(boxes[n].bounds, cfg.view) then [] else line);
      PassHighlightIff(boxes[..n], cfg, maxSize, r);
      LineBarIff(n, boxes[n], cfg, r);
      if 0 <= cfg.highlighted < n {
        assert boxes[..n][cfg.highlighted] == boxes[cfg.highlighted];
      }
    }
  }

  /** Line numbers, read back: every number on the canvas is `i + 1` in
      decimal for a line `i` that overlaps the visible rectangle, printed at
      the gutter margin on that line's baseline, and only when numbers are
      shown; every gutter rule spans the visible rectangle at the rule's x. */
  lemma {:induction false} PassLabelsSound(boxes: seq<LineBox>, cfg: PassConfig, maxSize: Option<Point>, c: DrawCmd)
    requires c in Pass(boxes, cfg, maxSize).cmds
    ensures c.LineNumber? ==>
      && cfg.showNumbers
      && c.x == cfg.view.left + cfg.padding
      && (forall k :: 0 <= k < |c.text| ==> IsDigit(c.text[k]))
      && 1 <= ParseDecimal(c.text) <= |boxes|
      && c.text == DecimalString(ParseDecimal(c.text))
      && boxes[ParseDecimal(c.text) - 1].bounds.bottom >= cfg.view.top
      && boxes[ParseDecimal(c.text) - 1].bounds.top <= cfg.view.bottom
      && c.baseline == boxes[ParseDecimal(c.text) - 1].baseline
    ensures c.GutterRule? ==>
      cfg.showNumbers && c.x == cfg.ruleX && c.top == cfg.view.top && c.bottom == cfg.view.bottom
    decreases |boxes|
  {
    var n := |boxes| - 1;
    var prev := Pass(boxes[..n], cfg, maxSize);
    if c in prev.cmds {
      PassLabelsSound(boxes[..n], cfg, maxSize, c);
      if c.LineNumber? {
        assert boxes[..n][ParseDecimal(c.text) - 1] == boxes[ParseDecimal(c.text) - 1];
      }
    } else if c.LineNumber? {
      assert c == LineNumber(DecimalString(n + 1), cfg.view.left + cfg.padding, boxes[n].baseline);
      DecimalRoundTrip(n + 1);
    }
  }

  /** Every line that overlaps the visible rectangle gets its number, and
      then the gutter rule is drawn across the view. */
  lemma {:induction false} PassLabelsPresent(boxes: seq<LineBox>, cfg: PassConfig, maxSize: Option<Point>, i: nat)
    requires cfg.showNumbers && i < |boxes| && !Culled(boxes[i].bounds, cfg.view)
    ensures LineNumber(DecimalString(i + 1), cfg.view.left + cfg.padding, boxes[i].baseline)
              in Pass(boxes, cfg, maxSize).cmds
    ensures GutterRule(cfg.ruleX, cfg.view.top, cfg.view.bottom) in Pass(boxes, cfg, maxSize).cmds
    decreases |boxes|
  {
    var n := |boxes| - 1;
    var c := LineNumber(DecimalString(i + 1), cfg.view.left + cfg.padding, boxes[i].baseline);
    var g := GutterRule(cfg.ruleX, cfg.view.top, cfg.view.bottom);
    var prev := Pass(boxes[..n], cfg, maxSize).cmds;
    if i < n {
      assert boxes[..n][i] == boxes[i];
      PassLabelsPresent(boxes[..n], cfg, maxSize, i);
      assert c in prev && g in prev;
    } else {
      var line := LineCommands(n, boxes[n], cfg);
      assert line[|line| - 2] == c && line[|line| - 1] == g;
      assert Pass(boxes, cfg, maxSize).cmds == prev + line;
    }
  }

  /** Drawing order: one more line appends that line's commands, if it
      survives culling, after everything drawn for the earlier lines. */
  lemma PassSnoc(boxes: seq<LineBox>, b: LineBox, cfg: PassConfig, maxSize: Option<Point>)
    ensures Pass(boxes + [b], cfg, maxSize).cmds ==
      Pass(boxes, cfg, maxSize).cmds + (if Culled(b.bounds, cfg.view) then [] else LineCommands(|boxes|, b, cfg))
    ensures Pass(boxes + [b], cfg, maxSize).maxSize == GrowRight(Pass(boxes, cfg, maxSize).maxSize, b.bounds)
  {
    assert (boxes + [b])[..|boxes|] == boxes;
  }

  /** With `PassLabelsSound`: a line's number is on the canvas exactly when
      the line overlaps the visible rectangle. */
  lemma PassLabelsComplete(boxes: seq<LineBox>, cfg: PassConfig, maxSize: Option<Point>, i: nat)
    requires cfg.showNumbers && i < |boxes|
    ensures LineNumber(DecimalString(i + 1), cfg.view.left + cfg.padding, boxes[i].baseline)
              in Pass(boxes, cfg, maxSize).cmds
        <==> boxes[i].bounds.bottom >= cfg.view.top && boxes[i].bounds.top <= cfg.view.bottom
  {
    var c := LineNumber(DecimalString(i + 1), cfg.view.left + cfg.padding, boxes[i].baseline);
    if !Culled(boxes[i].bounds, cfg.view) {
      PassLabelsPresent(boxes, cfg, maxSize, i);
    } else if c in Pass(boxes, cfg, maxSize).cmds {
      PassLabelsSound(boxes, cfg, maxSize, c);
      DecimalRoundTrip(i + 1);
      assert false;
    }
  }
}

=== FILE: gutter.dfy ===
/** Width of the line-number gutter: the left padding `onDraw` sets and the
    x position of the rule drawn between the gutter and the text. */
module Gutter {
  import opened Decimal

  const IntMin: int := -0x8000_0000

  /** Pixel sizes the widget takes from the display and the settings, in
      whole pixels: `mPadding`, the text size of the number paint (the
      width of one digit slot), and half a character of the editor's text
      size. */
  datatype Metrics = Metrics(padding: int, glyph: int, halfChar: int)

  /** Digit slots reserved for `count` lines,
      `(int) (Math.floor(Math.log10(count)) + 1)`. For a positive count this
      is its number of decimal digits. For 0 the logarithm is minus
      infinity and the cast yields `Integer.MIN_VALUE`; for a negative count
      it is NaN and the cast yields 0. */
  function DigitSlots(count: int): (slots: int)
    ensures count >= 1 ==> slots == |DecimalString(count)|
    ensures count < 1 ==> slots <= 0
  {
    if count >= 1 then DigitCount(count)
    else if count == 0 then IntMin
    else 0
  }

  /** The digit slots of a positive count sit between consecutive powers of
      ten, as `floor(log10(count)) + 1` does; the two degenerate counts give
      the values of the float-to-int cast. */
  lemma DigitSlotsIsLog10(count: int)
    ensures count >= 1 ==>
      DigitSlots(count) >= 1 && Pow10(DigitSlots(count) - 1) <= count < Pow10(DigitSlots(count))
    ensures count == 0 ==> DigitSlots(count) == IntMin
    ensures count < 0 ==> DigitSlots(count) == 0
  {
    if count >= 1 {
      DigitCountBrackets(count);
    }
  }

  /** The left padding of one draw pass: digit slots plus the base padding
      plus half a character of breathing room when line numbers are shown,
      the base padding alone otherwise. */
  function LeftPadding(showNumbers: bool, count: int, m: Metrics): (r: int)
    ensures !showNumbers ==> r == m.padding
    ensures showNumbers && count >= 1 ==>
      r == |DecimalString(count)| * m.glyph + m.padding + m.halfChar
  {
    if showNumbers then DigitSlots(count) * m.glyph + m.padding + m.halfChar
    else m.padding
  }

  /** The x position of the gutter rule, half a character left of where the
      text starts. */
  function RuleX(viewLeft: int, leftPadding: int, m: Metrics): (x: int)
    ensures x + m.halfChar == viewLeft + leftPadding
    ensures m.halfChar >= 0 ==> x <= viewLeft + leftPadding
  {
    viewLeft + leftPadding - m.halfChar
  }

  /** Every line number up to the line count has at most as many digits as
      the gutter has slots, and the last line's number uses them all. */
  lemma {:induction false} NumbersFitSlots(count: int, number: nat)
    requires 1 <= number <= count
    ensures |DecimalString(number)| <= DigitSlots(count)
    ensures number == count ==> |DecimalString(number)| == DigitSlots(count)
  {
    DigitCountMonotone(number, count);
  }

  /** In pixels: every line number up to the line count, printed at the
      gutter's left margin, ends at or before the rule; the number of the
      last line fills the gutter exactly. */
  lemma LabelsFitGutter(count: int, number: nat, viewLeft: int, m: Metrics)
    requires 1 <= number <= count
    requires m.glyph >= 0
    ensures viewLeft + m.padding + |DecimalString(number)| * m.glyph
         <= RuleX(viewLeft, LeftPadding(true, count, m), m)
    ensures number == count ==>
      viewLeft + m.padding + |DecimalString(number)| * m.glyph
         == RuleX(viewLeft, LeftPadding(true, count, m), m)
  {
    NumbersFitSlots(count, number);
    var digits := |DecimalString(number)|;
    var slots := DigitSlots(count);
    MulMonotone(digits, slots, m.glyph);
    assert RuleX(viewLeft, LeftPadding(true, count, m), m) == viewLeft + slots * m.glyph + m.padding;
  }

  /** In pixels: a number with at least one and at most as many digits as
      the gutter has slots, printed at the left margin, ends at or before
      the rule. */
  lemma DigitsFitGutter(count: int, digits: int, viewLeft: int, m: Metrics)
    requires 1 <= digits <= DigitSlots(count)
    requires m.glyph >= 0
    ensures viewLeft + m.padding + digits * m.glyph <= RuleX(viewLeft, LeftPadding(true, count, m), m)
  {
    var slots := DigitSlots(count);
    MulMonotone(digits, slots, m.glyph);
    assert RuleX(viewLeft, LeftPadding(true, count, m), m) == viewLeft + slots * m.glyph + m.padding;
  }

  /** A gutter sized for 99 lines has two slots, so the three digits of 100
      printed at the margin end one glyph past the rule. */
  lemma NarrowGutterOverflows(viewLeft: int, m: Metrics)
    requires m.glyph > 0
    ensures DigitSlots(99) == 2 && |DecimalString(100)| == 3
    ensures viewLeft + m.padding + |DecimalString(100)| * m.glyph
         == RuleX(viewLeft, LeftPadding(true, 99, m), m) + m.glyph
  {
    assert DigitCount(99) == 2 && DigitCount(100) == 3;
    assert RuleX(viewLeft, LeftPadding(true, 99, m), m) == viewLeft + 2 * m.glyph + m.padding;
  }

  lemma MulSucc(a: int, c: int)
    ensures (a + 1) * c == a * c + c
  {
  }

  lemma MulMonotone(a: int, b: int, c: int)
    requires a <= b && c >= 0
    ensures a * c <= b * c
  {
  }

  /** With numbers shown, the padding never shrinks as lines are added. */
  lemma LeftPaddingMonotone(c1: int, c2: int, m: Metrics)
    requires 1 <= c1 <= c2
    requires m.glyph >= 0
    ensures LeftPadding(true, c1, m) <= LeftPadding(true, c2, m)
  {
    DigitCountMonotone(c1, c2);
    MulMonotone(DigitSlots(c1), DigitSlots(c2), m.glyph);
  }

  /** With numbers shown, the padding widens by exactly one digit slot each
      time the line count reaches a power of ten. */
  lemma LeftPaddingAtPowerOfTen(k: nat, m: Metrics)
    requires k >= 1
    ensures LeftPadding(true, Pow10(k), m) == LeftPadding(true, Pow10(k) - 1, m) + m.glyph
  {
    var p := Pow10(k);
    assert p >= 10 by {
      assert p == 10 * Pow10(k - 1);
    }
    var q: nat := p - 1;
    DigitCountAtPowerOfTen(k);
    var a := DigitCount(q);
    var b := DigitCount(p);
    assert a == k && b == k + 1;
    assert DigitSlots(q) == a;
    assert DigitSlots(p) == b;
    PaddingStep(a, b, m);
  }

  lemma PaddingStep(a: int, b: int, m: Metrics)
    requires b == a + 1
    ensures b * m.glyph + m.padding + m.halfChar == (a * m.glyph + m.padding + m.halfChar) + m.glyph
  {
    MulSucc(a, m.glyph);
  }
}

=== FILE: options.dfy ===
/** A value that may be absent, for the widget's nullable references. */
module Options {

  datatype Option<+T> = None | Some(value: T)
}

=== FILE: text_lines.dfy ===
/** Line bookkeeping over the editor's text: counting line feeds and the
    one-character form of `String.indexOf` that the caret scan is built on. */
module TextLines {

  const LineFeed: char := '\n'

  /** Number of line feeds in `s`. */
  function NewlineCount(s: seq<char>): (n: nat)
    ensures n <= |s|
  {
    if |s| == 0 then 0
    else NewlineCount(s[..|s| - 1]) + (if s[|s| - 1] == LineFeed then 1 else 0)
  }

  /** The positions of `s` that hold a line feed. */
  ghost function NewlinePositions(s: seq<char>): set<nat>
  {
    set k: nat | k < |s| && s[k] == LineFeed
  }

  /** A selection offset pulled into the text: nothing before offset 0 and
      nothing past the end of the text can precede the caret. */
  function ClampOffset(text: seq<char>, offset: int): (k: nat)
    ensures k <= |text|
    ensures 0 <= offset <= |text| ==> k == offset
  {
    if offset <= 0 then 0 else if offset >= |text| then |text| else offset
  }

  /** Number of line feeds strictly before `offset`: the 0-based index of the
      line holding that offset. */
  function NewlinesBefore(text: seq<char>, offset: int): (n: nat)
    ensures n == multiset(text[..ClampOffset(text, offset)])[LineFeed]
    ensures n <= NewlineCount(text)
  {
    var c := ClampOffset(text, offset);
    CountIsMultiplicity(text[..c]);
    CountPrefixMonotone(text, c, |text|);
    assert text[..|text|] == text;
    NewlineCount(text[..c])
  }

  /** `String.indexOf` with a one-character needle: the first position at or
      after `from` holding `c`, or -1. A negative `from` searches from 0, and a
      `from` at or past the end finds nothing. */
  function IndexOf(s: seq<char>, c: char, from: int): (k: int)
    ensures k == -1 || (0 <= k < |s| && from <= k && s[k] == c)
    ensures k == -1 ==> forall j :: 0 <= j < |s| && from <= j ==> s[j] != c
    ensures k != -1 ==> forall j :: 0 <= j < k && from <= j ==> s[j] != c
    decreases |s| - from
  {
    if from < 0 then IndexOf(s, c, 0)
    else if from >= |s| then -1
    else if s[from] == c then from
    else IndexOf(s, c, from + 1)
  }

  /** Extending a prefix by one character adds one exactly when that
      character is a line feed. */
  lemma CountStep(s: seq<char>, k: nat)
    requires k < |s|
    ensures NewlineCount(s[..k + 1]) == NewlineCount(s[..k]) + (if s[k] == LineFeed then 1 else 0)
  {
    assert s[..k + 1][..k] == s[..k];
  }

  /** Counting is additive over concatenation. */
  lemma {:induction false} CountConcat(a: seq<char>, b: seq<char>)
    ensures NewlineCount(a + b) == NewlineCount(a) + NewlineCount(b)
    decreases |b|
  {
    if |b| > 0 {
      var b' := b[..|b| - 1];
      assert (a + b)[..|a + b| - 1] == a + b';
      CountConcat(a, b');
    } else {
      assert a + b == a;
    }
  }

  /** A stretch without line feeds adds nothing to a prefix count. */
  lemma {:induction false} CountFlatStretch(s: seq<char>, a: nat, b: nat)
    requires a <= b <= |s|
    requires forall j :: a <= j < b ==> s[j] != LineFeed
    ensures NewlineCount(s[..b]) == NewlineCount(s[..a])
    decreases b - a
  {
    if a < b {
      CountStep(s, b - 1);
      CountFlatStretch(s, a, b - 1);
    }
  }

  /** The counting function agrees with the multiset view of the text: it is
      the multiplicity of the line feed. */
  lemma {:induction false} CountIsMultiplicity(s: seq<char>)
    ensures NewlineCount(s) == multiset(s)[LineFeed]
  {
    if |s| > 0 {
      var init := s[..|s| - 1];
      assert s == init + [s[|s| - 1]];
      assert multiset(s) == multiset(init) + multiset{s[|s| - 1]};
      CountIsMultiplicity(init);
    }
  }

  /** The counting function agrees with the set of line-feed positions. */
  lemma {:induction false} CountIsPositionCount(s: seq<char>)
    ensures NewlineCount(s) == |NewlinePositions(s)|
  {
    if |s| > 0 {
      var n := |s| - 1;
      var init := s[..n];
      CountIsPositionCount(init);
      if s[n] == LineFeed {
        assert NewlinePositions(s) == NewlinePositions(init) + {n};
      } else {
        assert NewlinePositions(s) == NewlinePositions(init);
      }
    } else {
      assert NewlinePositions(s) == {};
    }
  }

  /** No line feed in `s` exactly when the count is zero. */
  lemma {:induction false} CountZeroIff(s: seq<char>)
    ensures NewlineCount(s) == 0 <==> forall j :: 0 <= j < |s| ==> s[j] != LineFeed
  {
    CountIsMultiplicity(s);
    assert LineFeed in multiset(s) <==> LineFeed in s;
  }

  /** A prefix never holds more line feeds than a longer prefix. */
  lemma CountPrefixMonotone(s: seq<char>, a: nat, b: nat)
    requires a <= b <= |s|
    ensures NewlineCount(s[..a]) <= NewlineCount(s[..b])
  {
    assert s[..b] == s[..a] + s[a..b];
    CountConcat(s[..a], s[a..b]);
  }

  /** For an offset inside the text, the caret line is the number of
      line-feed characters at positions strictly below the offset, read both
      as a multiplicity and as a count of positions. */
  lemma NewlinesBeforeCountsPositions(text: seq<char>, offset: int)
    requires 0 <= offset <= |text|
    ensures NewlinesBefore(text, offset) == multiset(text[..offset])[LineFeed]
    ensures NewlinesBefore(text, offset) == |set k: nat | k < offset && text[k] == LineFeed|
  {
    var p := text[..offset];
    CountIsMultiplicity(p);
    CountIsPositionCount(p);
    assert NewlinePositions(p) == set k: nat | k < offset && text[k] == LineFeed;
  }

  /** The caret line is 0 exactly when no line feed precedes the offset; in
      particular it is 0 for every offset at or below 0. */
  lemma NewlinesBeforeZeroIff(text: seq<char>, offset: int)
    ensures NewlinesBefore(text, offset) == 0
        <==> forall j :: 0 <= j < |text| && j < offset ==> text[j] != LineFeed
    ensures offset <= 0 ==> NewlinesBefore(text, offset) == 0
  {
    var c := ClampOffset(text, offset);
    CountZeroIff(text[..c]);
    if forall j :: 0 <= j < c ==> text[..c][j] != LineFeed {
      forall j | 0 <= j < |text| && j < offset
        ensures text[j] != LineFeed
      {
        assert text[..c][j] == text[j];
      }
    }
  }

  /** Moving the caret forward never moves its line up, and the line never
      exceeds the number of line feeds in the whole text. */
  lemma NewlinesBeforeMonotone(text: seq<char>, a: int, b: int)
    requires a <= b
    ensures NewlinesBefore(text, a) <= NewlinesBefore(text, b) <= NewlineCount(text)
  {
    CountPrefixMonotone(text, ClampOffset(text, a), ClampOffset(text, b));
    CountPrefixMonotone(text, ClampOffset(text, b), |text|);
    assert text[..|text|] == text;
  }
}

=== FILE: theme.dfy ===
/** The colour themes of the editor: the `switch` on the colour setting that
    picks a background and three paint colours. */
module Theme {

  type Channel = c: int | 0 <= c < 256

  /** An Android colour int, split into its four 8-bit channels. */
  datatype Argb = Argb(alpha: Channel, red: Channel, green: Channel, blue: Channel)

  /** `Color.rgb`: an opaque colour. */
  function Rgb(r: Channel, g: Channel, b: Channel): Argb
  {
    Argb(255, r, g, b)
  }

  const White := Rgb(255, 255, 255)
  const Black := Rgb(0, 0, 0)
  const Gray := Rgb(0x88, 0x88, 0x88)
  const Green := Rgb(0, 255, 0)
  const Red := Rgb(255, 0, 0)

  /** Alpha the highlight paint is given after every theme change. */
  const HighlightAlpha: Channel := 48

  /** The drawable resources used as the text field background. */
  datatype Background = TextfieldWhite | TextfieldBlack | TextfieldMatrix | TextfieldSky | TextfieldDracula

  datatype ThemeName = Classic | Negative | Matrix | Sky | Dracula

  /** The integer codes of the colour setting. Their values live in the
      application's constants, which are not part of this model; the switch
      only needs them to be distinct case labels. */
  datatype ColorCodes = ColorCodes(classic: int, negative: int, matrix: int, sky: int, dracula: int)
  {
    predicate Distinct()
    {
      && negative != matrix && negative != sky && negative != dracula && negative != classic
      && matrix != sky && matrix != dracula && matrix != classic
      && sky != dracula && sky != classic
      && dracula != classic
    }
  }

  /** What a theme sets: background, text colour, highlight paint colour and
      line-number paint colour. */
  datatype Palette = Palette(background: Background, text: Argb, highlight: Argb, numbers: Argb)

  /** The switch's dispatch: the four named cases, and the classic theme for
      the classic code and every other code (`default`). */
  function ThemeOf(codes: ColorCodes, color: int): (name: ThemeName)
    ensures name != Classic ==> color == CodeOf(codes, name)
    ensures name == Classic <==> color !in {codes.negative, codes.matrix, codes.sky, codes.dracula}
  {
    if color == codes.negative then Negative
    else if color == codes.matrix then Matrix
    else if color == codes.sky then Sky
    else if color == codes.dracula then Dracula
    else Classic
  }

  function CodeOf(codes: ColorCodes, name: ThemeName): int
  {
    match name
    case Classic => codes.classic
    case Negative => codes.negative
    case Matrix => codes.matrix
    case Sky => codes.sky
    case Dracula => codes.dracula
  }

  /** The colours each branch of the switch sets, before the alpha change. */
  function BranchPalette(name: ThemeName): (p: Palette)
    ensures p.highlight == p.text
    ensures p.text.alpha == 255 && p.numbers.alpha == 255
  {
    match name
    case Negative => Palette(TextfieldBlack, White, White, Gray)
    case Matrix => Palette(TextfieldMatrix, Green, Green, Rgb(0, 128, 0))
    case Sky => Palette(TextfieldSky, Rgb(0, 0, 64), Rgb(0, 0, 64), Rgb(0, 128, 255))
    case Dracula => Palette(TextfieldDracula, Red, Red, Rgb(192, 0, 0))
    case Classic => Palette(TextfieldWhite, Black, Black, Gray)
  }

  /** The whole theme step: the switch, then `setAlpha(48)` on the highlight
      paint. The highlight is the text colour made translucent, text and
      numbers are opaque, and any code the switch does not name gives the
      classic palette. */
  function ApplyTheme(codes: ColorCodes, color: int): (p: Palette)
    ensures p.highlight == p.text.(alpha := HighlightAlpha)
    ensures p.text.alpha == 255 && p.numbers.alpha == 255
    ensures color !in {codes.negative, codes.matrix, codes.sky, codes.dracula} ==>
      p == Palette(TextfieldWhite, Black, Black.(alpha := HighlightAlpha), Gray)
  {
    var b := BranchPalette(ThemeOf(codes, color));
    b.(highlight := b.highlight.(alpha := HighlightAlpha))
  }

  /** With distinct case labels, every theme's own code selects that theme. */
  lemma ThemeRoundTrip(codes: ColorCodes, name: ThemeName)
    requires codes.Distinct()
    ensures ThemeOf(codes, CodeOf(codes, name)) == name
  {
  }

  /** Distinct themes look different: the background alone tells them apart,
      so the theme can be read back from the palette. */
  lemma PaletteIdentifiesTheme(a: ThemeName, b: ThemeName)
    ensures BranchPalette(a).background == BranchPalette(b).background ==> a == b
  {
  }
}

=== FILE: widget.dfy ===
/** The editor widget as a whole: its state between callbacks, the settings
    update, and one draw pass composed of the padding, the caret-line
    computation, the line loop and the extents. */
module Widget {
  import opened Options
  import opened TextLines
  import opened Decimal
  import opened CaretLine
  import opened Gutter
  import opened DrawPass
  import opened Theme

  /** The fields of the application-wide settings store the widget reads. */
  datatype Settings = Settings(wordWrap: bool, flingToScroll: bool, color: int, showLineNumbers: bool)

  /** The widget's state that outlives one callback: the highlight cache,
      `mMaxSize` (present exactly when a fling scroller exists), the last line
      bounds the draw loop read (`mLineBounds`), whether the view scrolls
      horizontally, and the palette once a theme has been applied. */
  datatype WidgetState = WidgetState(
    cache: HighlightCache,
    maxSize: Option<Point>,
    lineBounds: Rect,
    horizontallyScrolling: bool,
    palette: Option<Palette>)

  /** Fields as the constructor sets them before it applies the settings. */
  const Fresh := WidgetState(Initial, None, Rect(0, 0, 0, 0), false, None)

  /** `updateFromSettings`. In the layout editor nothing happens. Otherwise
      horizontal scrolling is the opposite of word wrap, the theme is applied,
      and fling scrolling gets fresh extents at the origin or none at all. */
  function UpdateFromSettings(st: WidgetState, editMode: bool, s: Settings, codes: ColorCodes): (r: WidgetState)
    ensures editMode ==> r == st
    ensures r.cache == st.cache && r.lineBounds == st.lineBounds
    ensures !editMode ==> r.horizontallyScrolling != s.wordWrap
    ensures !editMode ==> r.palette == Some(ApplyTheme(codes, s.color))
    ensures !editMode ==> r.palette.value.highlight.alpha == HighlightAlpha
    ensures !editMode ==> (r.maxSize.Some? <==> s.flingToScroll)
    ensures !editMode && r.maxSize.Some? ==> r.maxSize.value == Point(0, 0)
  {
    if editMode then st
    else
      st.(horizontallyScrolling := !s.wordWrap,
          palette := Some(ApplyTheme(codes, s.color)),
          maxSize := if s.flingToScroll then Some(Point(0, 0)) else None)
  }

  /** The constructor: both cache fields at -1, then the settings applied. */
  function Construct(editMode: bool, s: Settings, codes: ColorCodes): (r: WidgetState)
    ensures r.cache == Initial && r.cache.line == NoLine && r.cache.start == NoLine
    ensures Invariant(r)
    ensures editMode ==> r.palette.None? && r.maxSize.None?
    ensures !editMode ==> r.palette == Some(ApplyTheme(codes, s.color))
    ensures r.maxSize.Some? <==> !editMode && s.flingToScroll
  {
    UpdateFromSettings(Fresh, editMode, s, codes)
  }

  /** What one draw pass leaves behind: the new state, the left padding it
      set, and the commands it sent to the canvas before the text itself. */
  datatype DrawOutcome = DrawOutcome(state: WidgetState, leftPadding: int, cmds: seq<DrawCmd>)

  /** `onDraw`, up to the text drawing of the base class. The method reads
      `getLineCount()` twice, with `setPadding` in between: `gutterCount` is
      the first read, which sizes the gutter, and `boxes` holds what the
      layout reports for each line of the second read, which drives the
      loop. `view` is the drawing rectangle. */
  function OnDraw(st: WidgetState, s: Settings, m: Metrics, f: Frame, gutterCount: int, boxes: seq<LineBox>, view: Rect): (r: DrawOutcome)
    ensures r.state.cache.start == st.cache.start
    ensures !f.enabled ==> r.state.cache.line == NoLine
    ensures f.enabled && f.selStart == st.cache.start ==> r.state.cache.line == st.cache.line
    ensures f.enabled && f.selStart != st.cache.start ==> r.state.cache.line == NewlinesBefore(f.text, f.selStart)
    ensures r.state.maxSize.Some? <==> st.maxSize.Some?
    ensures r.state.maxSize.Some? ==> r.state.maxSize.value.x >= 0 && r.state.maxSize.value.y >= 0
    ensures r.state.lineBounds == if |boxes| == 0 then st.lineBounds else boxes[|boxes| - 1].bounds
    ensures r.state.palette == st.palette && r.state.horizontallyScrolling == st.horizontallyScrolling
    ensures !s.showLineNumbers ==> r.leftPadding == m.padding
    ensures s.showLineNumbers && gutterCount >= 1 ==>
      r.leftPadding == |DecimalString(gutterCount)| * m.glyph + m.padding + m.halfChar
    ensures |r.cmds| <= 3 * |boxes|
  {
    var padding := LeftPadding(s.showLineNumbers, gutterCount, m);
    var cache := ComputeLineHighlight(st.cache, f);
    var cfg := PassConfig(view, cache.line, s.wordWrap, s.showLineNumbers, m.padding, RuleX(view.left, padding, m));
    var pass := Pass(boxes, cfg, st.maxSize);
    var last := if |boxes| == 0 then st.lineBounds else boxes[|boxes| - 1].bounds;
    DrawOutcome(
      st.(cache := cache, maxSize := FinishExtents(pass.maxSize, last, view, m.padding), lineBounds := last),
      padding,
      pass.cmds)
  }

  /** What holds of every state the widget can be in: the cached selection
      start is still the constructor's -1, and stored extents are scroll
      ranges, never negative. */
  predicate Invariant(st: WidgetState)
  {
    && st.cache.start == NoLine
    && (st.maxSize.Some? ==> st.maxSize.value.x >= 0 && st.maxSize.value.y >= 0)
  }

  /** The constructor establishes the invariant and both callbacks keep it;
      a draw pass also keeps whether extents are tracked at all. */
  lemma InvariantHolds(st: WidgetState, editMode: bool, s: Settings, codes: ColorCodes,
                       m: Metrics, f: Frame, gutterCount: int, boxes: seq<LineBox>, view: Rect)
    ensures Invariant(Construct(editMode, s, codes))
    ensures Invariant(st) ==> Invariant(UpdateFromSettings(st, editMode, s, codes))
    ensures Invariant(st) ==> Invariant(OnDraw(st, s, m, f, gutterCount, boxes, view).state)
    ensures OnDraw(st, s, m, f, gutterCount, boxes, view).state.maxSize.Some? <==> st.maxSize.Some?
  {
    var cache := ComputeLineHighlight(st.cache, f);
    var padding := LeftPadding(s.showLineNumbers, gutterCount, m);
    var cfg := PassConfig(view, cache.line, s.wordWrap, s.showLineNumbers, m.padding, RuleX(view.left, padding, m));
    PassExtents(boxes, cfg, st.maxSize);
  }

  /** In a reachable state with the widget enabled and a selection present,
      the bar is drawn over exactly the caret's line: the line whose index is
      the number of line feeds before the selection, when that line exists,
      overlaps the visible rectangle and word wrap is off. */
  lemma OnDrawHighlightsCaretLine(st: WidgetState, s: Settings, m: Metrics, f: Frame, gutterCount: int,
                                  boxes: seq<LineBox>, view: Rect, r: Rect)
    requires Invariant(st)
    requires f.enabled && f.selStart != NoLine
    ensures var line := NewlinesBefore(f.text, f.selStart);
      HighlightBar(r) in OnDraw(st, s, m, f, gutterCount, boxes, view).cmds <==>
        && !s.wordWrap
        && line < |boxes|
        && boxes[line].bounds.bottom >= view.top
        && boxes[line].bounds.top <= view.bottom
        && r == boxes[line].bounds
  {
    var cache := ComputeLineHighlight(st.cache, f);
    var padding := LeftPadding(s.showLineNumbers, gutterCount, m);
    var cfg := PassConfig(view, cache.line, s.wordWrap, s.showLineNumbers, m.padding, RuleX(view.left, padding, m));
    PassHighlightIff(boxes, cfg, st.maxSize, r);
  }

  /** A disabled widget draws no highlight bar at all and marks no line. */
  lemma OnDrawDisabled(st: WidgetState, s: Settings, m: Metrics, f: Frame, gutterCount: int,
                       boxes: seq<LineBox>, view: Rect, r: Rect)
    requires !f.enabled
    ensures HighlightBar(r) !in OnDraw(st, s, m, f, gutterCount, boxes, view).cmds
    ensures OnDraw(st, s, m, f, gutterCount, boxes, view).state.cache == st.cache.(line := NoLine)
  {
    var cache := ComputeLineHighlight(st.cache, f);
    var padding := LeftPadding(s.showLineNumbers, gutterCount, m);
    var cfg := PassConfig(view, cache.line, s.wordWrap, s.showLineNumbers, m.padding, RuleX(view.left, padding, m));
    PassHighlightIff(boxes, cfg, st.maxSize, r);
  }

  /** Every gutter rule a pass draws sits at the rule position of that pass.
      Every line number printed fits in the gutter, starting at the margin
      and ending at or before the rule, whenever the loop's line count has
      no more digits than the gutter reserves: in particular when the two
      reads of the line count agree, or the loop sees no more lines. */
  lemma OnDrawLabelsFitGutter(st: WidgetState, s: Settings, m: Metrics, f: Frame, gutterCount: int,
                              boxes: seq<LineBox>, view: Rect, c: DrawCmd)
    requires m.glyph >= 0
    requires c in OnDraw(st, s, m, f, gutterCount, boxes, view).cmds && c.LineNumber?
    ensures forall g | g in OnDraw(st, s, m, f, gutterCount, boxes, view).cmds && g.GutterRule? ::
      g.x == RuleX(view.left, OnDraw(st, s, m, f, gutterCount, boxes, view).leftPadding, m)
    ensures |boxes| <= gutterCount || |DecimalString(|boxes|)| <= DigitSlots(gutterCount) ==>
      && c.x + |c.text| * m.glyph <= RuleX(view.left, OnDraw(st, s, m, f, gutterCount, boxes, view).leftPadding, m)
      && forall g | g in OnDraw(st, s, m, f, gutterCount, boxes, view).cmds && g.GutterRule? ::
           c.x + |c.text| * m.glyph <= g.x
  {
    var cache := ComputeLineHighlight(st.cache, f);
    var padding := LeftPadding(s.showLineNumbers, gutterCount, m);
    var cfg := PassConfig(view, cache.line, s.wordWrap, s.showLineNumbers, m.padding, RuleX(view.left, padding, m));
    PassLabelsSound(boxes, cfg, st.maxSize, c);
    forall g | g in Pass(boxes, cfg, st.maxSize).cmds && g.GutterRule?
      ensures g.x == cfg.ruleX
    {
      PassLabelsSound(boxes, cfg, st.maxSize, g);
    }
    var number := ParseDecimal(c.text);
    if |boxes| <= gutterCount {
      NumbersFitSlots(gutterCount, |boxes|);
    }
    if |DecimalString(|boxes|)| <= DigitSlots(gutterCount) {
      DigitCountMonotone(number, |boxes|);
      DigitsFitGutter(gutterCount, |c.text|, view.left, m);
    }
  }

  /** When the second read of the line count has more digits than the
      first, the last line's number runs past the rule: with 99 lines sizing
      the gutter and 100 lines drawn, "100" needs three slots and the gutter
      has two. */
  lemma OnDrawLabelCanOverflow(st: WidgetState, s: Settings, m: Metrics, f: Frame,
                               boxes: seq<LineBox>, view: Rect)
    requires s.showLineNumbers && m.glyph > 0
    requires |boxes| == 100 && !Culled(boxes[99].bounds, view)
    ensures var c := LineNumber(DecimalString(100), view.left + m.padding, boxes[99].baseline);
      && c in OnDraw(st, s, m, f, 99, boxes, view).cmds
      && c.x + |c.text| * m.glyph > RuleX(view.left, OnDraw(st, s, m, f, 99, boxes, view).leftPadding, m)
  {
    var cache := ComputeLineHighlight(st.cache, f);
    var padding := LeftPadding(s.showLineNumbers, 99, m);
    var cfg := PassConfig(view, cache.line, s.wordWrap, s.showLineNumbers, m.padding, RuleX(view.left, padding, m));
    PassLabelsPresent(boxes, cfg, st.maxSize, 99);
    NarrowGutterOverflows(view.left, m);
  }

  /** Line numbers at the widget level: with numbers shown, line `i`'s number
      is printed at the margin exactly when the line survives culling, and
      the gutter rule is drawn whenever some line does; with numbers hidden
      neither numbers nor rules are drawn. */
  lemma OnDrawLabelsComplete(st: WidgetState, s: Settings, m: Metrics, f: Frame, gutterCount: int,
                             boxes: seq<LineBox>, view: Rect, i: nat)
    ensures s.showLineNumbers && i < |boxes| ==>
      (LineNumber(DecimalString(i + 1), view.left + m.padding, boxes[i].baseline)
         in OnDraw(st, s, m, f, gutterCount, boxes, view).cmds
       <==> !Culled(boxes[i].bounds, view))
    ensures s.showLineNumbers && i < |boxes| && !Culled(boxes[i].bounds, view) ==>
      GutterRule(RuleX(view.left, OnDraw(st, s, m, f, gutterCount, boxes, view).leftPadding, m), view.top, view.bottom)
        in OnDraw(st, s, m, f, gutterCount, boxes, view).cmds
    ensures !s.showLineNumbers ==>
      forall c | c in OnDraw(st, s, m, f, gutterCount, boxes, view).cmds :: !c.LineNumber? && !c.GutterRule?
  {
    var cache := ComputeLineHighlight(st.cache, f);
    var padding := LeftPadding(s.showLineNumbers, gutterCount, m);
    var cfg := PassConfig(view, cache.line, s.wordWrap, s.showLineNumbers, m.padding, RuleX(view.left, padding, m));
    if s.showLineNumbers && i < |boxes| {
      PassLabelsComplete(boxes, cfg, st.maxSize, i);
      if !Culled(boxes[i].bounds, view) {
        PassLabelsPresent(boxes, cfg, st.maxSize, i);
      }
    }
    if !s.showLineNumbers {
      forall c | c in Pass(boxes, cfg, st.maxSize).cmds
        ensures !c.LineNumber? && !c.GutterRule?
      {
        PassLabelsSound(boxes, cfg, st.maxSize, c);
      }
    }
  }

  /** The extents a draw pass stores for fling scrolling: the horizontal range
      covers the widest line seen so far (culled lines included) less the
      view width, the vertical range is the last line's bottom less the view
      height, each with the padding added and clamped at 0. */
  lemma OnDrawExtents(st: WidgetState, s: Settings, m: Metrics, f: Frame, gutterCount: int,
                      boxes: seq<LineBox>, view: Rect)
    requires st.maxSize.Some? && |boxes| > 0
    ensures var q := OnDraw(st, s, m, f, gutterCount, boxes, view).state.maxSize;
      && q.Some?
      && q.value.x >= st.maxSize.value.x + m.padding - view.Width()
      && (forall i :: 0 <= i < |boxes| ==> q.value.x >= boxes[i].bounds.right + m.padding - view.Width())
      && (|| q.value.x == 0
          || q.value.x == st.maxSize.value.x + m.padding - view.Width()
          || exists i :: 0 <= i < |boxes| && q.value.x == boxes[i].bounds.right + m.padding - view.Width())
      && q.value.y == (var y := boxes[|boxes| - 1].bounds.bottom + m.padding - view.Height();
                       if y > 0 then y else 0)
  {
    var cache := ComputeLineHighlight(st.cache, f);
    var padding := LeftPadding(s.showLineNumbers, gutterCount, m);
    var cfg := PassConfig(view, cache.line, s.wordWrap, s.showLineNumbers, m.padding, RuleX(view.left, padding, m));
    PassExtents(boxes, cfg, st.maxSize);
  }
}
